=== FILE: README.md ===
# eslint-no-restricted, modelled in Dafny

A model of the factory core of `eslint-no-restricted`. The library turns declarative rule
descriptors into an ESLint flat-config plugin. A descriptor holds a name, a message, an
optional `messageData` callback, an optional `defaultLevel` and a matcher-specific target.
There are three matcher kinds:

- **syntax**: one or more ESQuery selectors;
- **globals**: one or more global names;
- **properties**: one or more `object.property` pairs.

Files and modules:

- `wrappers.dfy` (`Wrappers`): `Option` and `Result`.
- `ast.dfy` (`Ast`): the syntax-tree subset the matchers inspect, and the report record handed
  to the host.
- `shared.dfy` (`Shared`): `createPlugin`. It validates the descriptors, builds the
  `recommended` config and the rule registry, and patches in the plugin's reference to itself.
  `Object.fromEntries` is modelled with its last-entry-wins behaviour.
- `properties.dfy` (`Properties`): static property-name resolution, the
  banned-name tables, the `MemberExpression` and `ObjectPattern` handlers, and `create`.
- `globals.dfy` (`Globals`): the two-pass `Program` handler and `create`.
- `syntax.dfy` (`Syntax`): the selector-to-handler map and the `create` entry point, which
  dispatches on a string first argument.

The plugin's self-reference is built in two steps. `Shell` has an empty `plugins` map.
`PatchSelf` sets `plugins` to `{ [pluginName]: SelfRef }`, and `Resolve` turns the `SelfRef`
marker back into the plugin that holds it. `CreatePlugin` is a pure function, so two builds
from the same descriptors are equal by construction. That covers equal rule key sets and
equal `recommended.rules`.

The model follows the code where it is narrower than its names and tests suggest, and keeps its edge cases:

- `getStaticPropertyName` resolves only `MemberExpression` nodes. It does not unwrap
  optional-chain wrappers and has no `Property` or `MethodDefinition` case. Destructuring
  patterns pass `Property` nodes to it, so the `ObjectPattern` handler never reports.
  `Properties.OnObjectPattern` and `Properties.DestructuringIsNotReported` state this.
- The globals and properties factories name their plugins `globals` and `properties`
  (src/globals.ts:61, src/properties.ts:164). The tests expect `no-restricted-globals` for
  both (tests/globals.test.ts:40, tests/properties.test.ts:61). The globals test at
  tests/globals.test.ts:122-129 also passes a plugin name as the first argument. The globals
  factory does not dispatch on a string (src/globals.ts:60-62), so it would treat that string as a
  descriptor, and `config.message.includes` (src/shared.ts:83) would fail on its missing message.
- `checkPropertyAccess` tests the object name for truthiness. A configured pair whose object is
  the empty string is therefore stored but never matched (`Properties.ObjectMatches`).

## Model

| member | source | states |
|---|---|---|
| `Shared.Includes` | src/shared.ts:83-84 | `includes` holds exactly when the fragment occurs at some offset of the message |
| `Shared.NeedsMessageData` | src/shared.ts:82-86 | a descriptor fails validation exactly when `{{` and `}}` each occur somewhere in its message and it has no `messageData` |
| `Shared.ErrorMessage` | src/shared.ts:87-89 | the thrown text opens with the rule's name in quotes and mentions `{{placeholder}}` and the missing `` `messageData` function`` |
| `Shared.ErrorMessageInjective` | src/shared.ts:87-89 | two errors with the same text name the same rule |
| `Shared.CreatePluginErrorMessage` | src/shared.ts:81-90 | a failed build's error text names, in quotes, the first descriptor that needs `messageData` |
| `Shared.FromEntriesKeys` | src/shared.ts:80-111 | `Object.fromEntries` has exactly the entries' keys, so repeated keys collapse |
| `Shared.FromEntriesLastWins` | src/shared.ts:80-111 | a repeated key of `Object.fromEntries` keeps the value of its last entry |
| `Shared.RuleIdInjective` | src/shared.ts:70 | two rules of one plugin with equal rule ids have equal names |
| `Shared.RegistryEntries` | src/shared.ts:80-111 | descriptors are validated in order: the build fails exactly when one needs `messageData`, naming the first such rule; otherwise entry `i` registers descriptor `i` under its bare name |
| `Shared.RegistryMap` | src/shared.ts:80-111 | the registry built from validated descriptors is keyed by exactly the descriptor names, and each name holds the rule of its last descriptor |
| `Shared.Assemble` | src/shared.ts:59-117 | the assembled plugin has the plugin name as meta name, a config named `<plugin>/recommended` whose `plugins` map has the single key `<plugin>` resolving to the plugin itself, and the given rule tables unchanged |
| `Shared.CreatePlugin` | src/shared.ts:50-118 | fails exactly when some descriptor has `{{` and `}}` but no `messageData`, whatever its level, with the error naming the first one; on success the meta name is the plugin name, the config is named `<plugin>/recommended`, `plugins` has the single key `<plugin>`, which resolves to the plugin itself, the registry keys are exactly the descriptor names (off rules included), and a repeated name keeps its last descriptor |
| `Shared.RecommendedEntriesFilter` | src/shared.ts:66-73 | each entry handed to `Object.fromEntries` is the `<plugin>/<name>` id and severity of a descriptor not `off`; there is at most one per descriptor, and none is dropped exactly when no descriptor is `off` |
| `Shared.RecommendedKeys` | src/shared.ts:66-73 | the ids of `recommended.rules` are exactly `<plugin>/<name>` of the descriptors whose level is not `off` |
| `Shared.RecommendedNeverOff` | src/shared.ts:68-71 | no rule in `recommended.rules` has level `off` |
| `Shared.RecommendedLastWins` | src/shared.ts:69-72 | each recommended id carries the level of the last non-`off` descriptor of that name, or `error` when it gives none |
| `Shared.RecommendedRules` | src/shared.ts:66-73 | the ids of `recommended.rules` are exactly `<plugin>/<name>` of the descriptors not `off`; no value is `off`; each id carries the level of the last such descriptor, or `error` when it has none |
| `Shared.CreatePluginRecommended` | src/shared.ts:59-75 | the same facts for the `recommended.rules` of a successfully built plugin |
| `Shared.CreatePluginMessages` | src/shared.ts:92-109 | every registered rule is registered under its own descriptor's name; its `report` message and its docs description are that descriptor's message, and its docs URL is the descriptor's `docUrl` |
| `Properties.StaticStringValue` | src/properties.ts:35-58 | a key has a static string exactly when it is a literal or a template with no expressions and one quasi; a string literal gives its text; a null-valued literal gives `/pattern/flags` for a regex marker, otherwise the bigint text, otherwise `"null"`; a boolean literal gives `true` or `false`; any other non-null literal gives the host's `String(value)` rendering; a plain template gives its cooked text |
| `Properties.StaticPropertyName` | src/properties.ts:59-69 | only member accesses resolve; `obj.a` gives `a`; a computed key resolves exactly when it is a literal or a plain template, so `obj[x]` gives nothing |
| `Properties.KeySpellingsAgree` | src/properties.ts:59-69 | `obj.p`, `obj["p"]` and ``obj[`p`]`` all give `p`, and `obj[p]` gives nothing |
| `Properties.AddEntry` | src/properties.ts:80-92 | an entry without an object adds its property to the global set, and any other entry adds its pair to the per-object table; every other pair keeps its standing, and no object maps to an empty set |
| `Properties.BuildTables` | src/properties.ts:72-93 | the global set holds exactly the object-less entries' properties; the per-object table holds exactly the configured `(object, property)` pairs; no object maps to an empty set |
| `Properties.CheckPropertyAccess` | src/properties.ts:98-123 | no report without a property name; otherwise exactly one report, at the node, when the property is banned on the (non-empty) object name or globally, and none otherwise |
| `Properties.ObjectNameOf` | src/properties.ts:129-131 | the object name is known exactly when the accessed object is a bare identifier, and is then its name |
| `Properties.OnMemberExpression` | src/properties.ts:126-134 | one report exactly when the access has a static property name and the configured pairs ban it, on that object or on every object; on a receiver that is not a bare identifier only object-less entries can match |
| `Properties.NumericIndexReported` | src/properties.ts:46-48 | a numeric index is matched through its rendering: `o[0]` is reported when `0` is banned on `o` |
| `Properties.PatternSource` | src/properties.ts:136-149 | a destructuring source is known only for a declarator initialised with an identifier, or an assignment or default whose right side is an identifier, and is then that identifier's name |
| `Properties.CheckElements` | src/properties.ts:151-157 | at most one report per element, all at the pattern with the pattern's data; when no element has a static property name there is none |
| `Properties.CheckElementsAppend` | src/properties.ts:151-157 | elements are checked one after another: the reports for a split list are those of its first part followed by those of its second |
| `Properties.CheckElementsSingle` | src/properties.ts:152-156 | a single element reports as `checkPropertyAccess` does on its static property name |
| `Properties.CheckElementsEmpty` | src/properties.ts:151-157 | a pattern draws no report exactly when `checkPropertyAccess` reports on none of its elements |
| `Properties.OnObjectPattern` | src/properties.ts:135-158 | a pattern whose elements are not member accesses, which is every real pattern, produces no report |
| `Properties.DestructuringIsNotReported` | src/properties.ts:126-158 | a banned pair `o.p` is reported on `o.p` and not on `const { p } = o` |
| `Properties.Create` | src/properties.ts:163-165 | the properties plugin is named `properties`, its `plugins` entry `properties` resolves to itself, and it fails exactly when some descriptor needs `messageData` |
| `Globals.ReportReference` | src/globals.ts:27-36 | a `report` at the reference's own identifier, whose data is the callback's result on that identifier, or `{}` without a callback |
| `Globals.DeclaredReports` | src/globals.ts:42-47 | every first-pass report is the report for some reference of a variable that has no definition and a banned name |
| `Globals.ReportEach` | src/globals.ts:27-36 | reports every reference in order, each at its identifier, with the callback's data or `{}` |
| `Globals.VariableReports` | src/globals.ts:43-47 | a variable with a definition yields nothing whatever its name; a banned variable without definitions yields one report per reference, in order |
| `Globals.ThroughReports` | src/globals.ts:50-54 | every second-pass report is at an identifier with a banned name and carries that identifier's data; `Globals.ThroughReportsAt` and `Globals.ThroughReportsComplete` state which references are reported and in what order |
| `Globals.Program` | src/globals.ts:22-55 | the handler's reports are the whole first pass over the variables followed by the whole second pass over the unresolved references; a single global name behaves as the one-element list |
| `Globals.DeclaredReportsAt` | src/globals.ts:43-47 | in the first pass, the references of each banned definition-less variable form one in-order block between the blocks of the variables before and after it, and any other variable adds nothing |
| `Globals.NoAmbientNoReports` | src/globals.ts:43-47 | when no variable is a banned, definition-less one, the first pass reports nothing |
| `Globals.ThroughReportsCount` | src/globals.ts:50-54 | the second pass reports exactly as often as there are unresolved references with a banned name |
| `Globals.ThroughReportsAppend` | src/globals.ts:50-54 | the second pass over two reference lists, one after the other, is the pass over the first followed by the pass over the second |
| `Globals.ThroughReportsAt` | src/globals.ts:50-54 | each unresolved reference with a banned name is reported exactly once, between the reports for the references before and after it; any other reference adds nothing |
| `Globals.ThroughReportsComplete` | src/globals.ts:50-54 | every unresolved reference with a banned name draws its report |
| `Globals.Create` | src/globals.ts:60-62 | the globals plugin is named `globals`, its `plugins` entry `globals` resolves to itself, and it fails exactly when some descriptor needs `messageData` |
| `Syntax.Handlers` | src/syntax.ts:21-40 | the handler map's keys are exactly the given selectors, so duplicates collapse and a single selector gives a one-key map; every key has the same handler |
| `Syntax.OnSelector` | src/syntax.ts:29-37 | a node matched by one of the descriptor's selectors draws exactly one `report` at its location, with the callback's data or `{}`; any other selector draws none |
| `Syntax.Create` | src/syntax.ts:46-57 | a string first argument names the plugin and the rest are its descriptors; otherwise the plugin is `no-restricted-syntax` over the first argument and the rest, with the first argument's rule registered |

## Left out

- The ESLint host is not modelled: `Linter`, `RuleCreator.withoutDocs`, `defaultOptions`, `schema` and rule execution. A registered rule keeps its descriptor, and each matcher's handlers give the meaning of `create` for it.
- The scope manager is not modelled. The top scope is an input record: variables with a definition count and references, plus the unresolved references.
- A scope reference's identifier may be a JSX identifier (src/globals.ts:7). The model folds it into `Identifier`, so only the node kind handed to the callback and reported is lost.
- ESQuery selector parsing and matching are not modelled. Selectors are opaque strings, and `Syntax.OnSelector` receives the selector the host matched.
- Source locations are not modelled. A `Loc` is copied into syntax reports. Identifier nodes carry only their name, so two references with the same name give equal reports; their order and count are kept.
- `messageData` callbacks and `sourceCode.getText` are caller code. A descriptor holds an opaque `DataFn`, and every handler takes an `eval` parameter that gives the callback's result on a node.
- `String(value)` for number, bigint and RegExp literal values is the host's conversion, so `OtherValue` carries the host's `String(value)` rendering of those values. Strings render as themselves, and booleans as `true` or `false`.
- The package version is read from `package.json`, which is I/O. It is the constant `Shared.PackageVersion`.
- The property tables are built once per `create(context)` call. The model rebuilds them in each handler call, which gives the same tables because building them is pure.
- JavaScript object key order is not modelled. Maps are unordered, so the insertion order of `rules` and `recommended.rules` is not stated.
- `src/index.ts` only re-exports, and the lint and build configuration files are tooling. Neither is part of this model.
- TypeScript inference of rule-name unions is a type-level feature with no runtime behaviour.

=== FILE: ast.dfy ===
/** The subset of the lint host's syntax tree and reporting vocabulary that the
    rule factories inspect or produce. */
module Ast {
  import opened Wrappers

  /** The `regex` marker of a regular-expression literal. */
  datatype RegexMarker = RegexMarker(pattern: string, flags: string)

  /** The runtime value of a literal. `OtherValue` carries the host's
      `String(value)` rendering of a number, a bigint or a RegExp object. */
  datatype LiteralValue =
    | NullValue
    | StringValue(text: string)
    | BooleanValue(flag: bool)
    | OtherValue(rendered: string)

  /** Syntax-tree nodes, tagged by their `type`. Template literals keep only
      the cooked text of each quasi; every node kind the factories never
      inspect is an `OtherNode`. */
  datatype Node =
    | Identifier(name: string)
    | Literal(value: LiteralValue, regex: Option<RegexMarker>, bigint: Option<string>)
    | TemplateLiteral(quasis: seq<string>, expressions: seq<Node>)
    | MemberExpression(receiver: Node, property: Node, computed: bool)
    | Property(key: Node, valueNode: Node, computed: bool)
    | ObjectPattern(properties: seq<Node>)
    | OtherNode(kind: string)

  /** An identifier node, as held by a scope reference. */
  type IdentifierNode = n: Node | n.Identifier? witness Identifier("")

  /** A source range; only ever copied into a report. */
  datatype Loc = Loc(startLine: nat, startColumn: nat, endLine: nat, endColumn: nat)

  /** A caller-supplied `messageData` callback, known only by identity. */
  datatype DataFn = DataFn(id: nat)

  /** Placeholder values produced by a `messageData` callback. */
  datatype DataValue = Text(text: string) | Number(rendered: string)

  type Data = map<string, DataValue>

  /** What the caller's callbacks compute on a node (together with the source
      text, which is folded into the callback here). */
  type DataEval = (DataFn, Node) -> Data

  /** Where a problem is reported: at a node, or at an explicit location. */
  datatype Target = AtNode(node: Node) | AtLoc(loc: Loc)

  /** One problem handed to the host's report sink. */
  datatype Report = Report(messageId: string, target: Target, data: Data)

  /** The message id every generated rule reports with. */
  const ReportId: string := "report"

  /** Placeholder data for a report at `node`: the callback's result when a
      callback is given, the empty record otherwise. */
  function ReportData(messageData: Option<DataFn>, eval: DataEval, node: Node): Data
  {
    match messageData
    case None => map[]
    case Some(f) => eval(f, node)
  }
}

=== FILE: globals.dfy ===
/** The global matcher: reports every reference to a banned name that is not
    bound by a declaration in the analysed source. */
module Globals {
  import opened Wrappers
  import opened Ast
  import opened Shared

  /** A reference to a name, held by its identifier node. */
  datatype Reference = Reference(identifier: IdentifierNode)

  /** A variable of the top scope: its name, how many declarations define it,
      and its references in source order. */
  datatype Variable = Variable(name: string, defCount: nat, references: seq<Reference>)

  /** The top scope: its variables, and the references it could not resolve. */
  datatype Scope = Scope(variables: seq<Variable>, through: seq<Reference>)

  /** `reportReference`: a `report` at the reference's identifier, whose data
      is the callback's result on that same identifier. */
  function ReportReference(messageData: Option<DataFn>, eval: DataEval, ref: Reference): (r: Report)
    ensures r.messageId == ReportId
    ensures r.target.AtNode? && r.target.node == ref.identifier
    ensures r.data == ReportData(messageData, eval, r.target.node)
    ensures messageData.None? ==> r.data == map[]
  {
    Report(ReportId, AtNode(ref.identifier), ReportData(messageData, eval, ref.identifier))
  }

  /** One report per reference, in order. */
  function ReportAll(messageData: Option<DataFn>, eval: DataEval, refs: seq<Reference>): (r: seq<Report>)
    ensures |r| == |refs|
    ensures forall k :: 0 <= k < |r| ==> r[k] == ReportReference(messageData, eval, refs[k])
  {
    seq(|refs|, k requires 0 <= k < |refs| => ReportReference(messageData, eval, refs[k]))
  }

  /** A variable without declarations (an ambient global) with a banned name. */
  predicate Ambient(names: seq<string>, v: Variable)
  {
    v.defCount == 0 && v.name in names
  }

  /** What the first pass reports for one variable: all its references when
      it is an ambient banned global, nothing otherwise. */
  function VariableReports(names: seq<string>, messageData: Option<DataFn>, eval: DataEval,
                           v: Variable): (r: seq<Report>)
    ensures v.defCount > 0 ==> r == []
    ensures Ambient(names, v) ==> r == ReportAll(messageData, eval, v.references)
    ensures !Ambient(names, v) ==> r == []
  {
    if v.defCount == 0 && v.name in names then ReportAll(messageData, eval, v.references) else []
  }

  /** `rep` reports the `j`-th reference of the `i`-th variable, which is an
      ambient banned global. */
  ghost predicate FromAmbient(names: seq<string>, messageData: Option<DataFn>, eval: DataEval,
                              vars: seq<Variable>, rep: Report)
  {
    exists i, j :: 0 <= i < |vars| && Ambient(names, vars[i]) && 0 <= j < |vars[i].references|
      && rep == ReportReference(messageData, eval, vars[i].references[j])
  }

  /** The first pass over the scope's variables: every report is for a
      reference of an ambient banned global. */
  function DeclaredReports(names: seq<string>, messageData: Option<DataFn>, eval: DataEval,
                           vars: seq<Variable>): (r: seq<Report>)
    ensures forall k :: 0 <= k < |r| ==> FromAmbient(names, messageData, eval, vars, r[k])
    decreases |vars|
  {
    if |vars| == 0 then []
    else
      var head := VariableReports(names, messageData, eval, vars[0]);
      var rest := DeclaredReports(names, messageData, eval, vars[1..]);
      FromAmbientStep(names, messageData, eval, vars);
      head + rest
  }

  /** A report for a variable of `vars[1..]`, or for the first variable, is a
      report for a variable of `vars`. */
  lemma FromAmbientStep(names: seq<string>, messageData: Option<DataFn>, eval: DataEval, vars: seq<Variable>)
    requires |vars| > 0
    ensures forall rep :: FromAmbient(names, messageData, eval, vars[1..], rep) ==>
                            FromAmbient(names, messageData, eval, vars, rep)
    ensures var head := VariableReports(names, messageData, eval, vars[0]);
      forall k :: 0 <= k < |head| ==> FromAmbient(names, messageData, eval, vars, head[k])
  {
    forall rep | FromAmbient(names, messageData, eval, vars[1..], rep)
      ensures FromAmbient(names, messageData, eval, vars, rep)
    {
      var i, j :| 0 <= i < |vars[1..]| && Ambient(names, vars[1..][i]) && 0 <= j < |vars[1..][i].references|
        && rep == ReportReference(messageData, eval, vars[1..][i].references[j]);
      assert vars[1..][i] == vars[i + 1];
    }
    var head := VariableReports(names, messageData, eval, vars[0]);
    forall k | 0 <= k < |head|
      ensures FromAmbient(names, messageData, eval, vars, head[k])
    {
      assert head[k] == ReportReference(messageData, eval, vars[0].references[k]);
    }
  }

  /** A report at an identifier with a banned name, carrying that
      identifier's placeholder data. */
  predicate ReportsBannedName(names: seq<string>, messageData: Option<DataFn>, eval: DataEval, rep: Report)
  {
    && rep.messageId == ReportId
    && rep.target.AtNode?
    && rep.target.node.Identifier?
    && rep.target.node.name in names
    && rep.data == ReportData(messageData, eval, rep.target.node)
  }

  /** The second pass over the scope's unresolved references. */
  function ThroughReports(names: seq<string>, messageData: Option<DataFn>, eval: DataEval,
                          through: seq<Reference>): (r: seq<Report>)
    ensures forall k :: 0 <= k < |r| ==> ReportsBannedName(names, messageData, eval, r[k])
    decreases |through|
  {
    if |through| == 0 then []
    else
      var n := |through| - 1;
      var rest := ThroughReports(names, messageData, eval, through[..n]);
      if through[n].identifier.name in names then
        rest + [ReportReference(messageData, eval, through[n])]
      else
        rest
  }

  /** `variable.references.forEach(reportReference)`. */
  method ReportEach(messageData: Option<DataFn>, eval: DataEval,
                    refs: seq<Reference>) returns (reports: seq<Report>)
    ensures reports == ReportAll(messageData, eval, refs)
  {
    reports := [];
    var k := 0;
    while k < |refs|
      invariant 0 <= k <= |refs|
      invariant |reports| == k
      invariant forall m :: 0 <= m < k ==> reports[m] == ReportReference(messageData, eval, refs[m])
    {
      reports := reports + [ReportReference(messageData, eval, refs[k])];
      k := k + 1;
    }
  }

  /** The `Program` handler: the first pass's reports, then the second's. */
  method Program(config: Descriptor<OneOrMany<string>>, eval: DataEval,
                 scope: Scope) returns (reports: seq<Report>)
    ensures reports ==
      DeclaredReports(ToList(config.target), config.messageData, eval, scope.variables)
      + ThroughReports(ToList(config.target), config.messageData, eval, scope.through)
    ensures config.target.One? ==>
      reports == DeclaredReports([config.target.item], config.messageData, eval, scope.variables)
               + ThroughReports([config.target.item], config.messageData, eval, scope.through)
  {
    var names := ToList(config.target);
    var vars := scope.variables;
    reports := [];
    var i := 0;
    while i < |vars|
      invariant 0 <= i <= |vars|
      invariant reports == DeclaredReports(names, config.messageData, eval, vars[..i])
    {
      var v := vars[i];
      DeclaredReportsSnoc(names, config.messageData, eval, vars, i);
      if v.defCount == 0 && v.name in names {
        var block := ReportEach(config.messageData, eval, v.references);
        reports := reports + block;
      }
      i := i + 1;
    }
    assert vars[..i] == vars;
    var firstPass := reports;
    var through := scope.through;
    var j := 0;
    while j < |through|
      invariant 0 <= j <= |through|
      invariant reports == firstPass + ThroughReports(names, config.messageData, eval, through[..j])
    {
      var ref := through[j];
      ThroughReportsStep(names, config.messageData, eval, through, j);
      if ref.identifier.name in names {
        reports := reports + [ReportReference(config.messageData, eval, ref)];
      }
      j := j + 1;
    }
    assert through[..j] == through;
  }

  /** Extending the second pass by one reference appends that reference's
      report when its name is banned. */
  lemma ThroughReportsStep(names: seq<string>, messageData: Option<DataFn>, eval: DataEval,
                           through: seq<Reference>, j: nat)
    requires j < |through|
    ensures ThroughReports(names, messageData, eval, through[..j + 1])
         == ThroughReports(names, messageData, eval, through[..j])
          + (if through[j].identifier.name in names
             then [ReportReference(messageData, eval, through[j])]
             else [])
  {
    assert through[..j + 1][..j] == through[..j];
    assert through[..j + 1][j] == through[j];
    var rest := ThroughReports(names, messageData, eval, through[..j]);
    assert rest + [] == rest;
  }

  /** The first pass is a concatenation over the variables, in order. */
  lemma {:induction false} DeclaredReportsAppend(names: seq<string>, messageData: Option<DataFn>,
                                                 eval: DataEval,
                                                 vs: seq<Variable>, ws: seq<Variable>)
    ensures DeclaredReports(names, messageData, eval, vs + ws)
         == DeclaredReports(names, messageData, eval, vs) + DeclaredReports(names, messageData, eval, ws)
    decreases |vs|
  {
    if |vs| == 0 {
      assert vs + ws == ws;
    } else {
      var all := vs + ws;
      assert all[0] == vs[0];
      assert all[1..] == vs[1..] + ws;
      DeclaredReportsAppend(names, messageData, eval, vs[1..], ws);
      var head := VariableReports(names, messageData, eval, vs[0]);
      var a := DeclaredReports(names, messageData, eval, vs[1..]);
      var b := DeclaredReports(names, messageData, eval, ws);
      assert DeclaredReports(names, messageData, eval, all) == head + (a + b);
      assert head + (a + b) == (head + a) + b;
    }
  }

  /** Extending the first pass by one variable appends that variable's reports. */
  lemma DeclaredReportsSnoc(names: seq<string>, messageData: Option<DataFn>, eval: DataEval,
                            vars: seq<Variable>, i: nat)
    requires i < |vars|
    ensures DeclaredReports(names, messageData, eval, vars[..i + 1])
         == DeclaredReports(names, messageData, eval, vars[..i])
          + VariableReports(names, messageData, eval, vars[i])
  {
    assert vars[..i + 1] == vars[..i] + [vars[i]];
    DeclaredReportsAppend(names, messageData, eval, vars[..i], [vars[i]]);
    assert [vars[i]][1..] == [];
    var v := VariableReports(names, messageData, eval, vars[i]);
    assert DeclaredReports(names, messageData, eval, [vars[i]]) == v + [];
    assert v + [] == v;
  }

  /** In the first pass, every reference of an ambient banned variable is
      reported, in order, as one block between the reports for the variables
      before it and those after it; a variable with a declaration contributes
      nothing. */
  lemma DeclaredReportsAt(names: seq<string>, messageData: Option<DataFn>, eval: DataEval,
                          vars: seq<Variable>, i: nat)
    requires i < |vars|
    ensures DeclaredReports(names, messageData, eval, vars)
         == DeclaredReports(names, messageData, eval, vars[..i])
          + (if Ambient(names, vars[i]) then ReportAll(messageData, eval, vars[i].references) else [])
          + DeclaredReports(names, messageData, eval, vars[i + 1..])
  {
    var pre := DeclaredReports(names, messageData, eval, vars[..i]);
    var own := VariableReports(names, messageData, eval, vars[i]);
    var post := DeclaredReports(names, messageData, eval, vars[i + 1..]);
    assert vars == vars[..i + 1] + vars[i + 1..];
    DeclaredReportsAppend(names, messageData, eval, vars[..i + 1], vars[i + 1..]);
    DeclaredReportsSnoc(names, messageData, eval, vars, i);
    assert DeclaredReports(names, messageData, eval, vars) == (pre + own) + post;
  }

  /** A banned name that every variable declares (or a variable list with no
      banned ambient global at all) draws nothing from the first pass. */
  lemma {:induction false} NoAmbientNoReports(names: seq<string>, messageData: Option<DataFn>,
                                              eval: DataEval, vars: seq<Variable>)
    requires forall i :: 0 <= i < |vars| ==> !Ambient(names, vars[i])
    ensures DeclaredReports(names, messageData, eval, vars) == []
    decreases |vars|
  {
    if |vars| > 0 {
      NoAmbientNoReports(names, messageData, eval, vars[1..]);
    }
  }

  /** Indices of the unresolved references whose name is banned. */
  ghost function BannedThrough(names: seq<string>, through: seq<Reference>): set<nat>
  {
    set i: nat | i < |through| && through[i].identifier.name in names
  }

  /** The banned indices of a reference list are those of its prefix, plus
      the last index when the last reference is banned. */
  lemma BannedThroughSnoc(names: seq<string>, through: seq<Reference>)
    requires |through| > 0
    ensures var n := |through| - 1;
      && BannedThrough(names, through)
         == BannedThrough(names, through[..n])
          + (if through[n].identifier.name in names then {n} else {})
      && n !in BannedThrough(names, through[..n])
  {
    var n := |through| - 1;
    var init := through[..n];
    var pre := BannedThrough(names, init);
    var all := BannedThrough(names, through);
    var extra: set<nat> := if through[n].identifier.name in names then {n} else {};
    forall i: nat | i in all ensures i in pre + extra {
      if i < n { assert init[i] == through[i]; }
    }
    forall i: nat | i in pre ensures i in all {
      assert init[i] == through[i];
    }
  }

  /** The second pass reports once per unresolved reference with a banned
      name. */
  lemma {:induction false} ThroughReportsCount(names: seq<string>, messageData: Option<DataFn>,
                                               eval: DataEval, through: seq<Reference>)
    ensures |ThroughReports(names, messageData, eval, through)| == |BannedThrough(names, through)|
    decreases |through|
  {
    if |through| > 0 {
      var n := |through| - 1;
      ThroughReportsCount(names, messageData, eval, through[..n]);
      var init := through[..n];
      var pre := BannedThrough(names, init);
      var extra: set<nat> := if through[n].identifier.name in names then {n} else {};
      BannedThroughSnoc(names, through);
      assert |BannedThrough(names, through)| == |pre| + |extra|;
      var rest := ThroughReports(names, messageData, eval, init);
      if through[n].identifier.name in names {
        assert ThroughReports(names, messageData, eval, through)
            == rest + [ReportReference(messageData, eval, through[n])];
      } else {
        assert ThroughReports(names, messageData, eval, through) == rest;
      }
    }
  }

  /** The second pass over concatenated reference lists is the two passes
      one after the other. */
  lemma {:induction false} ThroughReportsAppend(names: seq<string>, messageData: Option<DataFn>,
                                                eval: DataEval,
                                                xs: seq<Reference>, ys: seq<Reference>)
    ensures ThroughReports(names, messageData, eval, xs + ys)
         == ThroughReports(names, messageData, eval, xs) + ThroughReports(names, messageData, eval, ys)
    decreases |ys|
  {
    if |ys| == 0 {
      assert xs + ys == xs;
    } else {
      var n := |ys| - 1;
      var all := xs + ys;
      assert all[..|all| - 1] == xs + ys[..n];
      assert all[|all| - 1] == ys[n];
      ThroughReportsAppend(names, messageData, eval, xs, ys[..n]);
      var a := ThroughReports(names, messageData, eval, xs);
      var b := ThroughReports(names, messageData, eval, ys[..n]);
      if ys[n].identifier.name in names {
        var last := [ReportReference(messageData, eval, ys[n])];
        assert (a + b) + last == a + (b + last);
      }
    }
  }

  /** In the second pass, each unresolved reference with a banned name is
      reported exactly once, in its place between the reports for the
      references before and after it; any other reference adds nothing. */
  lemma ThroughReportsAt(names: seq<string>, messageData: Option<DataFn>, eval: DataEval,
                         through: seq<Reference>, j: nat)
    requires j < |through|
    ensures ThroughReports(names, messageData, eval, through)
         == ThroughReports(names, messageData, eval, through[..j])
          + (if through[j].identifier.name in names
             then [ReportReference(messageData, eval, through[j])]
             else [])
          + ThroughReports(names, messageData, eval, through[j + 1..])
  {
    assert through == through[..j] + [through[j]] + through[j + 1..];
    ThroughReportsAppend(names, messageData, eval, through[..j] + [through[j]], through[j + 1..]);
    ThroughReportsAppend(names, messageData, eval, through[..j], [through[j]]);
    assert [through[j]][..0] == [];
  }

  /** Every unresolved reference with a banned name is reported. */
  lemma ThroughReportsComplete(names: seq<string>, messageData: Option<DataFn>, eval: DataEval,
                               through: seq<Reference>, j: nat)
    requires j < |through| && through[j].identifier.name in names
    ensures ReportReference(messageData, eval, through[j])
         in ThroughReports(names, messageData, eval, through)
  {
    ThroughReportsAt(names, messageData, eval, through, j);
    var before := ThroughReports(names, messageData, eval, through[..j]);
    assert ThroughReports(names, messageData, eval, through)[|before|]
        == ReportReference(messageData, eval, through[j]);
  }

  /** `create`: the globals plugin is always named `globals`. */
  function Create(rules: seq<Descriptor<OneOrMany<string>>>)
    : (r: Result<Plugin<OneOrMany<string>>, BuildError>)
    ensures r.Failure? <==> exists i :: 0 <= i < |rules| && NeedsMessageData(rules[i])
    ensures r.Success? ==>
      && r.value.meta.name == "globals"
      && Resolve(r.value, "globals") == Some(r.value)
  {
    CreatePlugin("globals", rules)
  }
}

=== FILE: properties.dfy ===
/** The property matcher: static property-name resolution, the banned
    `object.property` tables, and the member-access and destructuring
    handlers. */
module Properties {
  import opened Wrappers
  import opened Ast
  import opened Shared

  // ---------------------------------------------------------------------------
  // Static names
  // ---------------------------------------------------------------------------

  /** `String(value)` for a non-null literal value. */
  function Stringify(v: LiteralValue): string
    requires !v.NullValue?
  {
    match v
    case StringValue(text) => text
    case BooleanValue(flag) => if flag then "true" else "false"
    case OtherValue(rendered) => rendered
  }

  /** A template literal without substitutions and with one quasi. */
  predicate PlainTemplate(node: Node)
  {
    node.TemplateLiteral? && |node.expressions| == 0 && |node.quasis| == 1
  }

  /** The statically known string a key expression denotes, if any. */
  function StaticStringValue(node: Node): (r: Option<string>)
    ensures r.Some? <==> node.Literal? || PlainTemplate(node)
    ensures node.Literal? && node.value.StringValue? ==> r == Some(node.value.text)
    ensures node.Literal? && node.value.NullValue? ==>
      r == Some(
        if node.regex.Some? then "/" + node.regex.value.pattern + "/" + node.regex.value.flags
        else if node.bigint.Some? then node.bigint.value
        else "null")
    ensures node.Literal? && node.value.BooleanValue? ==>
      r == Some(if node.value.flag then "true" else "false")
    ensures node.Literal? && node.value.OtherValue? ==> r == Some(node.value.rendered)
    ensures PlainTemplate(node) ==> r == Some(node.quasis[0])
  {
    match node
    case Literal(value, regex, bigint) =>
      if value.NullValue? then
        if regex.Some? then Some("/" + regex.value.pattern + "/" + regex.value.flags)
        else if bigint.Some? then Some(bigint.value)
        else Some("null")
      else
        Some(Stringify(value))
    case TemplateLiteral(quasis, expressions) =>
      if |expressions| == 0 && |quasis| == 1 then Some(quasis[0]) else None
    case _ => None
  }

  /** The statically known property name of a member access. Only member
      accesses resolve: every other node, including a destructuring
      `Property`, yields `None`. */
  function StaticPropertyName(node: Node): (r: Option<string>)
    ensures !node.MemberExpression? ==> r == None
    ensures node.MemberExpression? && !node.computed && node.property.Identifier? ==>
      r == Some(node.property.name)
    ensures node.MemberExpression? && node.computed ==>
      (r.Some? <==> node.property.Literal? || PlainTemplate(node.property))
    ensures node.MemberExpression? && !node.property.Identifier? ==> r == StaticStringValue(node.property)
  {
    if node.MemberExpression? then
      if node.property.Identifier? && !node.computed then Some(node.property.name)
      else StaticStringValue(node.property)
    else
      None
  }

  /** `obj.p`, `obj["p"]` and ``obj[`p`]`` all name the property `p`, while
      `obj[p]` names nothing. */
  lemma KeySpellingsAgree(obj: Node, p: string)
    ensures StaticPropertyName(MemberExpression(obj, Identifier(p), false)) == Some(p)
    ensures StaticPropertyName(MemberExpression(obj, Literal(StringValue(p), None, None), true)) == Some(p)
    ensures StaticPropertyName(MemberExpression(obj, TemplateLiteral([p], []), true)) == Some(p)
    ensures StaticPropertyName(MemberExpression(obj, Identifier(p), true)) == None
  {
  }

  // ---------------------------------------------------------------------------
  // Lookup tables
  // ---------------------------------------------------------------------------

  /** One banned `object.property` pair; without an object, the property is
      banned on every object. */
  datatype RestrictedProperty = RestrictedProperty(objectName: Option<string>, property: string)

  /** Banned property names per object name, and the globally banned names. */
  datatype Tables = Tables(perObject: map<string, set<string>>, global: set<string>)

  ghost predicate InObjectTable(t: Tables, o: string, p: string)
  {
    o in t.perObject && p in t.perObject[o]
  }

  /** Some configured entry bans `p` on every object. */
  ghost predicate ConfiguredGlobally(props: seq<RestrictedProperty>, p: string)
  {
    exists i :: 0 <= i < |props| && props[i] == RestrictedProperty(None, p)
  }

  /** Some configured entry bans `p` on object `o`. */
  ghost predicate ConfiguredFor(props: seq<RestrictedProperty>, o: string, p: string)
  {
    exists i :: 0 <= i < |props| && props[i] == RestrictedProperty(Some(o), p)
  }

  /** Records one configured entry in the tables: the entry's pair is added,
      every other pair keeps its standing, and no object maps to an empty set. */
  function AddEntry(t: Tables, e: RestrictedProperty): (r: Tables)
    ensures forall p :: p in r.global <==> p in t.global || e == RestrictedProperty(None, p)
    ensures forall o, p :: InObjectTable(r, o, p) <==>
                             InObjectTable(t, o, p) || e == RestrictedProperty(Some(o), p)
    ensures (forall o :: o in t.perObject ==> t.perObject[o] != {}) ==>
      forall o :: o in r.perObject ==> r.perObject[o] != {}
  {
    match e.objectName
    case None => t.(global := t.global + {e.property})
    case Some(o) =>
      var known := if o in t.perObject then t.perObject[o] else {};
      t.(perObject := t.perObject[o := known + {e.property}])
  }

  /** The tables built from the configured entries: together they hold
      exactly the configured pairs, and no object maps to an empty set. */
  function BuildTables(props: seq<RestrictedProperty>): (t: Tables)
    ensures forall p :: p in t.global <==> ConfiguredGlobally(props, p)
    ensures forall o, p :: InObjectTable(t, o, p) <==> ConfiguredFor(props, o, p)
    ensures forall o :: o in t.perObject ==> t.perObject[o] != {}
    decreases |props|
  {
    if |props| == 0 then
      Tables(map[], {})
    else
      var n := |props| - 1;
      var t0 := BuildTables(props[..n]);
      PrefixConfigured(props);
      AddEntry(t0, props[n])
  }

  /** A configured pair is configured by the last entry or by an earlier one. */
  lemma PrefixConfigured(props: seq<RestrictedProperty>)
    requires |props| > 0
    ensures var n := |props| - 1;
      && (forall p :: ConfiguredGlobally(props, p) <==>
            ConfiguredGlobally(props[..n], p) || props[n] == RestrictedProperty(None, p))
      && (forall o, p :: ConfiguredFor(props, o, p) <==>
            ConfiguredFor(props[..n], o, p) || props[n] == RestrictedProperty(Some(o), p))
  {
    var n := |props| - 1;
    assert forall i :: 0 <= i < n ==> props[..n][i] == props[i];
  }

  // ---------------------------------------------------------------------------
  // Matching
  // ---------------------------------------------------------------------------

  /** The per-object table bans `p` on `objectName`. An empty object name is
      falsy in the source, so it never matches the per-object table. */
  predicate ObjectMatches(t: Tables, objectName: Option<string>, p: string)
  {
    objectName.Some? && objectName.value != ""
    && objectName.value in t.perObject && p in t.perObject[objectName.value]
  }

  /** `checkPropertyAccess`: at most one report, issued exactly when the
      property name is known and banned on the object or globally. */
  function CheckPropertyAccess(t: Tables, messageData: Option<DataFn>, eval: DataEval, node: Node,
                               objectName: Option<string>, propertyName: Option<string>): (r: seq<Report>)
    ensures |r| <= 1
    ensures propertyName.None? ==> r == []
    ensures |r| == 1 <==>
      && propertyName.Some?
      && (ObjectMatches(t, objectName, propertyName.value) || propertyName.value in t.global)
    ensures forall k :: 0 <= k < |r| ==>
                         r[k] == Report(ReportId, AtNode(node), ReportData(messageData, eval, node))
  {
    match propertyName
    case None => []
    case Some(p) =>
      if ObjectMatches(t, objectName, p) || p in t.global then
        [Report(ReportId, AtNode(node), ReportData(messageData, eval, node))]
      else
        []
  }

  /** The configuration bans property `p` on `objectName`: globally, or for
      that (non-empty) object name. */
  ghost predicate Banned(props: seq<RestrictedProperty>, objectName: Option<string>, p: string)
  {
    ConfiguredGlobally(props, p)
    || (objectName.Some? && objectName.value != "" && ConfiguredFor(props, objectName.value, p))
  }

  /** The object a member access is made on, known only when it is a bare
      identifier. */
  function ObjectNameOf(node: Node): (r: Option<string>)
    requires node.MemberExpression?
    ensures r.Some? <==> node.receiver.Identifier?
    ensures r.Some? ==> r.value == node.receiver.name
  {
    if node.receiver.Identifier? then Some(node.receiver.name) else None
  }

  /** The `MemberExpression` handler: one report exactly when the accessed
      property has a static name that the configuration bans on this object
      (or on every object); an access on anything but a bare identifier is
      judged by the object-less entries alone. */
  function OnMemberExpression(config: Descriptor<OneOrMany<RestrictedProperty>>, eval: DataEval,
                              node: Node): (r: seq<Report>)
    requires node.MemberExpression?
    ensures |r| <= 1
    ensures |r| == 1 <==>
      && StaticPropertyName(node).Some?
      && Banned(ToList(config.target), ObjectNameOf(node), StaticPropertyName(node).value)
    ensures !node.receiver.Identifier? ==>
      (|r| == 1 <==>
         && StaticPropertyName(node).Some?
         && ConfiguredGlobally(ToList(config.target), StaticPropertyName(node).value))
    ensures forall k :: 0 <= k < |r| ==>
                         r[k] == Report(ReportId, AtNode(node), ReportData(config.messageData, eval, node))
  {
    var t := BuildTables(ToList(config.target));
    CheckPropertyAccess(t, config.messageData, eval, node, ObjectNameOf(node), StaticPropertyName(node))
  }

  /** The parent of a destructuring pattern, reduced to what the handler
      inspects. */
  datatype Parent =
    | VariableDeclarator(init: Option<Node>)
    | AssignmentExpression(right: Node)
    | AssignmentPattern(right: Node)
    | OtherParent(kind: string)

  /** The object a destructuring pattern takes apart, known only for
      `const {..} = id`, `{..} = id` and `{..} = id` as a default. */
  function PatternSource(parent: Parent): (r: Option<string>)
    ensures r.Some? <==>
      || (parent.VariableDeclarator? && parent.init.Some? && parent.init.value.Identifier?)
      || ((parent.AssignmentExpression? || parent.AssignmentPattern?) && parent.right.Identifier?)
    ensures r.Some? && parent.VariableDeclarator? ==> r.value == parent.init.value.name
    ensures r.Some? && !parent.VariableDeclarator? ==> r.value == parent.right.name
  {
    match parent
    case VariableDeclarator(init) =>
      if init.Some? && init.value.Identifier? then Some(init.value.name) else None
    case AssignmentExpression(right) =>
      if right.Identifier? then Some(right.name) else None
    case AssignmentPattern(right) =>
      if right.Identifier? then Some(right.name) else None
    case OtherParent(_) => None
  }

  /** Checks every element of a pattern in order, all reported at the
      pattern; an element reports only if it has a static property name. */
  function CheckElements(t: Tables, messageData: Option<DataFn>, eval: DataEval, node: Node,
                         objectName: Option<string>, elements: seq<Node>): (r: seq<Report>)
    ensures |r| <= |elements|
    ensures (forall i :: 0 <= i < |elements| ==> StaticPropertyName(elements[i]).None?) ==> r == []
    ensures forall k :: 0 <= k < |r| ==>
                         r[k] == Report(ReportId, AtNode(node), ReportData(messageData, eval, node))
    decreases |elements|
  {
    if |elements| == 0 then []
    else
      CheckPropertyAccess(t, messageData, eval, node, objectName, StaticPropertyName(elements[0]))
        + CheckElements(t, messageData, eval, node, objectName, elements[1..])
  }

  /** Checking a pattern's elements is checking each element in turn: the
      reports for a split list are those of its halves, in order. */
  lemma {:induction false} CheckElementsAppend(t: Tables, messageData: Option<DataFn>, eval: DataEval,
                                               node: Node,
                                              objectName: Option<string>, es1: seq<Node>, es2: seq<Node>)
    ensures CheckElements(t, messageData, eval, node, objectName, es1 + es2)
         == CheckElements(t, messageData, eval, node, objectName, es1)
          + CheckElements(t, messageData, eval, node, objectName, es2)
    decreases |es1|
  {
    if |es1| == 0 {
      assert es1 + es2 == es2;
    } else {
      var all := es1 + es2;
      assert all[0] == es1[0];
      assert all[1..] == es1[1..] + es2;
      CheckElementsAppend(t, messageData, eval, node, objectName, es1[1..], es2);
      var head := CheckPropertyAccess(t, messageData, eval, node, objectName, StaticPropertyName(es1[0]));
      var a := CheckElements(t, messageData, eval, node, objectName, es1[1..]);
      var b := CheckElements(t, messageData, eval, node, objectName, es2);
      assert head + (a + b) == (head + a) + b;
    }
  }

  /** A pattern draws no report exactly when none of its elements draws one
      from `checkPropertyAccess`. */
  lemma {:induction false} CheckElementsEmpty(t: Tables, messageData: Option<DataFn>, eval: DataEval,
                                              node: Node,
                                             objectName: Option<string>, elements: seq<Node>)
    ensures CheckElements(t, messageData, eval, node, objectName, elements) == [] <==>
      forall i :: 0 <= i < |elements| ==>
        CheckPropertyAccess(t, messageData, eval, node, objectName, StaticPropertyName(elements[i])) == []
    decreases |elements|
  {
    if |elements| > 0 {
      CheckElementsEmpty(t, messageData, eval, node, objectName, elements[1..]);
      assert forall i :: 0 < i < |elements| ==> elements[1..][i - 1] == elements[i];
    }
  }

  /** A single element reports as `checkPropertyAccess` does on its name. */
  lemma CheckElementsSingle(t: Tables, messageData: Option<DataFn>, eval: DataEval, node: Node,
                            objectName: Option<string>, e: Node)
    ensures CheckElements(t, messageData, eval, node, objectName, [e])
         == CheckPropertyAccess(t, messageData, eval, node, objectName, StaticPropertyName(e))
  {
    assert [e][1..] == [];
    var c := CheckPropertyAccess(t, messageData, eval, node, objectName, StaticPropertyName(e));
    assert c + [] == c;
  }

  /** The `ObjectPattern` handler. Its elements are `Property` and rest
      nodes, which have no static property name, so it reports nothing. */
  function OnObjectPattern(config: Descriptor<OneOrMany<RestrictedProperty>>, eval: DataEval,
                           node: Node, parent: Parent): (r: seq<Report>)
    requires node.ObjectPattern?
    ensures |r| <= |node.properties|
    ensures (forall i :: 0 <= i < |node.properties| ==> !node.properties[i].MemberExpression?) ==> r == []
  {
    var t := BuildTables(ToList(config.target));
    CheckElements(t, config.messageData, eval, node, PatternSource(parent), node.properties)
  }

  /** A numeric index is matched through its rendering: `o[0]` is reported
      when `0` is banned on `o`. */
  lemma NumericIndexReported(config: Descriptor<OneOrMany<RestrictedProperty>>, eval: DataEval, o: string)
    requires o != "" && RestrictedProperty(Some(o), "0") in ToList(config.target)
    ensures |OnMemberExpression(config, eval,
                                MemberExpression(Identifier(o), Literal(OtherValue("0"), None, None), true))| == 1
  {
    var props := ToList(config.target);
    var i :| 0 <= i < |props| && props[i] == RestrictedProperty(Some(o), "0");
    assert ConfiguredFor(props, o, "0");
  }

  /** A banned pair is reported on `o.p` but not on `const { p } = o`. */
  lemma DestructuringIsNotReported(config: Descriptor<OneOrMany<RestrictedProperty>>, eval: DataEval,
                                   o: string, p: string)
    requires o != "" && RestrictedProperty(Some(o), p) in ToList(config.target)
    ensures |OnMemberExpression(config, eval, MemberExpression(Identifier(o), Identifier(p), false))| == 1
    ensures OnObjectPattern(config, eval, ObjectPattern([Property(Identifier(p), Identifier(p), false)]),
                            VariableDeclarator(Some(Identifier(o)))) == []
  {
    var props := ToList(config.target);
    var i :| 0 <= i < |props| && props[i] == RestrictedProperty(Some(o), p);
    assert ConfiguredFor(props, o, p);
  }

  /** `create`: the properties plugin is always named `properties`. */
  function Create(rules: seq<Descriptor<OneOrMany<RestrictedProperty>>>)
    : (r: Result<Plugin<OneOrMany<RestrictedProperty>>, BuildError>)
    ensures r.Failure? <==> exists i :: 0 <= i < |rules| && NeedsMessageData(rules[i])
    ensures r.Success? ==>
      && r.value.meta.name == "properties"
      && Resolve(r.value, "properties") == Some(r.value)
  {
    CreatePlugin("properties", rules)
  }
}

=== FILE: shared.dfy ===
/** The plugin builder shared by the three rule factories: descriptor
    validation, the `recommended` flat config, the rule registry and the
    plugin's reference to itself. */
module Shared {
  import opened Wrappers
  import opened Ast

  /** A matcher target given either as a single value or as an array. */
  datatype OneOrMany<T> = One(item: T) | Many(items: seq<T>)

  /** The array a `OneOrMany` stands for. */
  function ToList<T>(v: OneOrMany<T>): seq<T>
  {
    match v
    case One(x) => [x]
    case Many(xs) => xs
  }

  /** Severity of a rule in the `recommended` config. */
  datatype Level = Error | Warn | Off

  /** A declarative rule descriptor; `target` is the matcher-specific field
      (`selector`, `globalName` or `property`). */
  datatype Descriptor<T> = Descriptor(
    name: string,
    message: string,
    messageData: Option<DataFn>,
    defaultLevel: Option<Level>,
    docUrl: Option<string>,
    target: T)

  /** The version string read from the package manifest. */
  const PackageVersion: string := "0.0.0"

  // ---------------------------------------------------------------------------
  // Substring search and descriptor validation
  // ---------------------------------------------------------------------------

  /** `part` occurs in `s` at offset `i`. */
  ghost predicate OccursAt(s: string, part: string, i: int)
  {
    0 <= i && i + |part| <= |s| && s[i..i + |part|] == part
  }

  /** String `includes`: whether `part` occurs anywhere in `s`. */
  function Includes(s: string, part: string): (b: bool)
    ensures b <==> exists i :: OccursAt(s, part, i)
    decreases |s|
  {
    if |s| < |part| then
      false
    else if s[..|part|] == part then
      assert OccursAt(s, part, 0);
      true
    else
      var b := Includes(s[1..], part);
      OccursShift(s, part);
      b
  }

  /** Past a first position that is not a match, matches in `s` are the
      matches in `s[1..]`, shifted by one. */
  lemma OccursShift(s: string, part: string)
    requires |s| >= |part| && s[..|part|] != part
    ensures (exists i :: OccursAt(s, part, i)) <==> (exists i :: OccursAt(s[1..], part, i))
  {
    if i :| OccursAt(s[1..], part, i) {
      assert s[1..][i..i + |part|] == s[i + 1..i + 1 + |part|];
      assert OccursAt(s, part, i + 1);
    }
    if i :| OccursAt(s, part, i) {
      assert i != 0;
      assert s[1..][i - 1..i - 1 + |part|] == s[i..i + |part|];
      assert OccursAt(s[1..], part, i - 1);
    }
  }

  /** A descriptor that uses `{{placeholder}}` syntax without a data callback:
      building a plugin from it fails. */
  predicate NeedsMessageData<T>(d: Descriptor<T>): (b: bool)
    ensures b <==>
      && (exists i :: OccursAt(d.message, "{{", i))
      && (exists j :: OccursAt(d.message, "}}", j))
      && d.messageData.None?
  {
    Includes(d.message, "{{") && Includes(d.message, "}}") && d.messageData.None?
  }

  /** `i` is the first descriptor that fails validation. */
  ghost predicate FirstInvalid<T>(ds: seq<Descriptor<T>>, i: int)
  {
    0 <= i < |ds| && NeedsMessageData(ds[i])
    && forall j :: 0 <= j < i ==> !NeedsMessageData(ds[j])
  }

  /** The construction error, naming the offending rule. */
  datatype BuildError = MissingMessageData(ruleName: string)

  /** The text of the thrown error: it opens by naming the rule in quotes and
      goes on to ask for a `messageData` function. */
  function ErrorMessage(e: BuildError): (m: string)
    ensures OccursAt(m, "Rule '" + e.ruleName + "'", 0)
    ensures Includes(m, "{{placeholder}}") && Includes(m, "`messageData` function")
  {
    var opening := "Rule '" + e.ruleName + "'";
    var placeholder := "{{placeholder}}";
    var callback := "`messageData` function";
    var m := opening + " defined a message with a " + placeholder + " but did not provide a "
      + callback + ".\nYou must provide a " + callback + ".";
    var at := |opening| + |" defined a message with a "|;
    var at2 := at + |placeholder| + |" but did not provide a "|;
    assert m[..|opening|] == opening;
    assert OccursAt(m, placeholder, at) by { assert m[at..at + |placeholder|] == placeholder; }
    assert OccursAt(m, callback, at2) by { assert m[at2..at2 + |callback|] == callback; }
    m
  }

  /** Distinct rules give distinct error texts. */
  lemma ErrorMessageInjective(a: BuildError, b: BuildError)
    requires ErrorMessage(a) == ErrorMessage(b)
    ensures a == b
  {
    var m := ErrorMessage(a);
    var open := "Rule '";
    assert OccursAt(m, open + a.ruleName + "'", 0) && OccursAt(m, open + b.ruleName + "'", 0);
    assert |a.ruleName| == |b.ruleName|;
    var k := |open|;
    assert a.ruleName == (open + a.ruleName + "'")[k..k + |a.ruleName|];
    assert b.ruleName == (open + b.ruleName + "'")[k..k + |b.ruleName|];
  }

  // ---------------------------------------------------------------------------
  // Object.fromEntries
  // ---------------------------------------------------------------------------

  /** No entry after position `i` has the same key as entry `i`. */
  ghost predicate LastKeyAt<K, V>(entries: seq<(K, V)>, i: int)
  {
    0 <= i < |entries| && forall j :: i < j < |entries| ==> entries[j].0 != entries[i].0
  }

  /** `Object.fromEntries`: later entries overwrite earlier ones. */
  function FromEntries<K, V>(entries: seq<(K, V)>): map<K, V>
    decreases |entries|
  {
    if |entries| == 0 then map[]
    else
      var n := |entries| - 1;
      FromEntries(entries[..n])[entries[n].0 := entries[n].1]
  }

  /** Some entry has key `k`. */
  ghost predicate HasKey<K, V>(entries: seq<(K, V)>, k: K)
  {
    exists i :: 0 <= i < |entries| && entries[i].0 == k
  }

  /** The keys of `Object.fromEntries` are the entries' keys, and each key
      holds the value of the last entry with that key. */
  lemma FromEntriesSpec<K, V>(entries: seq<(K, V)>)
    ensures forall k :: k in FromEntries(entries) <==> HasKey(entries, k)
    ensures forall i :: LastKeyAt(entries, i) ==>
      entries[i].0 in FromEntries(entries) && FromEntries(entries)[entries[i].0] == entries[i].1
  {
    FromEntriesKeys(entries);
    FromEntriesLastWins(entries);
  }

  /** The keys of `Object.fromEntries` are exactly the entries' keys. */
  lemma {:induction false} FromEntriesKeys<K, V>(entries: seq<(K, V)>)
    ensures forall k :: k in FromEntries(entries) <==> HasKey(entries, k)
    decreases |entries|
  {
    if |entries| > 0 {
      var n := |entries| - 1;
      var pre := entries[..n];
      FromEntriesKeys(pre);
      forall k | k != entries[n].0 ensures HasKey(entries, k) <==> HasKey(pre, k) {
        if HasKey(pre, k) {
          var i :| 0 <= i < |pre| && pre[i].0 == k;
          assert entries[i].0 == k;
        }
        if HasKey(entries, k) {
          var i :| 0 <= i < |entries| && entries[i].0 == k;
          assert pre[i].0 == k;
        }
      }
      assert HasKey(entries, entries[n].0);
    }
  }

  /** A key's value is that of the last entry with that key. */
  lemma {:induction false} FromEntriesLastWins<K, V>(entries: seq<(K, V)>)
    ensures forall i :: LastKeyAt(entries, i) ==>
      entries[i].0 in FromEntries(entries) && FromEntries(entries)[entries[i].0] == entries[i].1
    decreases |entries|
  {
    if |entries| > 0 {
      var n := |entries| - 1;
      var pre := entries[..n];
      FromEntriesLastWins(pre);
      forall i | LastKeyAt(entries, i) && i < n ensures LastKeyAt(pre, i) {
        assert pre[i] == entries[i];
      }
    }
  }

  /** Appending one entry to `Object.fromEntries` input overwrites one key. */
  lemma FromEntriesSnoc<K, V>(entries: seq<(K, V)>, e: (K, V))
    ensures FromEntries(entries + [e]) == FromEntries(entries)[e.0 := e.1]
  {
    assert (entries + [e])[..|entries|] == entries;
  }

  /** When every entry carries the same value, so does every key. */
  lemma {:induction false} FromEntriesValues<K, V>(entries: seq<(K, V)>, v: V)
    requires forall i :: 0 <= i < |entries| ==> entries[i].1 == v
    ensures forall k :: k in FromEntries(entries) ==> FromEntries(entries)[k] == v
    decreases |entries|
  {
    if |entries| > 0 {
      FromEntriesValues(entries[..|entries| - 1], v);
    }
  }

  // ---------------------------------------------------------------------------
  // The plugin
  // ---------------------------------------------------------------------------

  /** An entry of a config's `plugins` map. The only plugin ever placed there
      is the plugin that holds the config. */
  datatype PluginRef = SelfRef

  /** A flat config: its name, its plugins, and rule id to severity. */
  datatype FlatConfig = FlatConfig(name: string, plugins: map<string, PluginRef>, rules: map<string, Level>)

  datatype Configs = Configs(recommended: FlatConfig)

  datatype Meta = Meta(name: string, version: string)

  /** A generated rule's metadata (`type` is always `problem`, `schema` and
      `defaultOptions` are always empty). */
  datatype RuleMeta = RuleMeta(description: string, url: Option<string>, messages: map<string, string>,
                               kind: string)

  /** A registered rule: its metadata and the descriptor its `create` is
      compiled from. */
  datatype RuleDef<T> = RuleDef(meta: RuleMeta, config: Descriptor<T>)

  datatype Plugin<T> = Plugin(configs: Configs, meta: Meta, rules: map<string, RuleDef<T>>)

  /** The identifier a rule has in a flat config. */
  function RuleId(pluginName: string, ruleName: string): string
  {
    pluginName + "/" + ruleName
  }

  /** Rule ids of one plugin name different rules apart. */
  lemma RuleIdInjective(pluginName: string, a: string, b: string)
    requires RuleId(pluginName, a) == RuleId(pluginName, b)
    ensures a == b
  {
    var k := |pluginName| + 1;
    assert RuleId(pluginName, a)[k..] == a;
    assert RuleId(pluginName, b)[k..] == b;
  }

  /** Whether a descriptor enters the `recommended` config. */
  predicate Active<T>(d: Descriptor<T>)
  {
    d.defaultLevel != Some(Off)
  }

  /** The recommended severity of a descriptor. */
  function Severity<T>(d: Descriptor<T>): Level
  {
    match d.defaultLevel
    case None => Error
    case Some(l) => l
  }

  /** The entries of `recommended.rules`: the active descriptors, in order. */
  function RecommendedEntries<T>(pluginName: string, ds: seq<Descriptor<T>>): seq<(string, Level)>
    decreases |ds|
  {
    if |ds| == 0 then []
    else
      var n := |ds| - 1;
      RecommendedEntries(pluginName, ds[..n])
        + (if Active(ds[n]) then [(RuleId(pluginName, ds[n].name), Severity(ds[n]))] else [])
  }

  /** `recommended` filters, then maps: every entry is the id and severity of
      an active descriptor, at most one per descriptor, and nothing is dropped
      exactly when every descriptor is active. */
  lemma {:induction false} RecommendedEntriesFilter<T>(pluginName: string, ds: seq<Descriptor<T>>)
    ensures var r := RecommendedEntries(pluginName, ds);
      && |r| <= |ds|
      && (|r| == |ds| <==> forall i :: 0 <= i < |ds| ==> Active(ds[i]))
      && forall k :: 0 <= k < |r| ==>
           exists i ::
             && 0 <= i < |ds|
             && Active(ds[i])
             && r[k] == (RuleId(pluginName, ds[i].name), Severity(ds[i]))
    decreases |ds|
  {
    if |ds| > 0 {
      var n := |ds| - 1;
      var pre := ds[..n];
      RecommendedEntriesFilter(pluginName, pre);
      var rest := RecommendedEntries(pluginName, pre);
      var r := RecommendedEntries(pluginName, ds);
      assert forall i :: 0 <= i < n ==> pre[i] == ds[i];
      forall k | 0 <= k < |r|
        ensures exists i ::
          && 0 <= i < |ds|
          && Active(ds[i])
          && r[k] == (RuleId(pluginName, ds[i].name), Severity(ds[i]))
      {
        if k < |rest| {
          assert r[k] == rest[k];
          var i :| && 0 <= i < |pre|
                   && Active(pre[i])
                   && rest[k] == (RuleId(pluginName, pre[i].name), Severity(pre[i]));
          assert ds[i] == pre[i];
        } else {
          assert Active(ds[n]) && r[k] == (RuleId(pluginName, ds[n].name), Severity(ds[n]));
        }
      }
    }
  }

  /** The registry entry for one descriptor. */
  function RegisterRule<T>(d: Descriptor<T>): RuleDef<T>
  {
    RuleDef(RuleMeta(d.message, d.docUrl, map[ReportId := d.message], "problem"), d)
  }

  /** The entries of `rules`, or the error of the first descriptor that fails
      validation (descriptors are validated in order). */
  function RegistryEntries<T>(ds: seq<Descriptor<T>>): (r: Result<seq<(string, RuleDef<T>)>, BuildError>)
    ensures r.Success? <==> forall i :: 0 <= i < |ds| ==> !NeedsMessageData(ds[i])
    ensures r.Success? ==>
      && |r.value| == |ds|
      && (forall i :: 0 <= i < |ds| ==> r.value[i] == (ds[i].name, RegisterRule(ds[i])))
    ensures r.Failure? ==> exists i :: FirstInvalid(ds, i) && r.error == MissingMessageData(ds[i].name)
    decreases |ds|
  {
    if |ds| == 0 then
      Success([])
    else if NeedsMessageData(ds[0]) then
      assert FirstInvalid(ds, 0);
      Failure(MissingMessageData(ds[0].name))
    else
      match RegistryEntries(ds[1..])
      case Failure(e) =>
        FirstInvalidShift(ds);
        Failure(e)
      case Success(rest) =>
        Success([(ds[0].name, RegisterRule(ds[0]))] + rest)
  }

  /** When the first descriptor is valid, the first invalid one is the first
      invalid one of the rest, one position later. */
  lemma FirstInvalidShift<T>(ds: seq<Descriptor<T>>)
    requires |ds| > 0 && !NeedsMessageData(ds[0])
    ensures forall i :: FirstInvalid(ds[1..], i) ==> FirstInvalid(ds, i + 1)
  {
    forall i | FirstInvalid(ds[1..], i) ensures FirstInvalid(ds, i + 1) {
      assert forall j :: 0 < j < i + 1 ==> ds[j] == ds[1..][j - 1];
    }
  }

  /** The plugin before its self-reference is patched in. */
  function Shell<T>(pluginName: string, recommended: map<string, Level>,
                    rules: map<string, RuleDef<T>>): Plugin<T>
  {
    Plugin(
      Configs(FlatConfig(pluginName + "/recommended", map[], recommended)),
      Meta(pluginName, PackageVersion),
      rules)
  }

  /** `configs.recommended.plugins = { [pluginName]: plugin }`. */
  function PatchSelf<T>(p: Plugin<T>, pluginName: string): Plugin<T>
  {
    p.(configs := Configs(p.configs.recommended.(plugins := map[pluginName := SelfRef])))
  }

  /** The plugin a config entry of `p` refers to. */
  function Resolve<T>(p: Plugin<T>, key: string): Option<Plugin<T>>
  {
    if key in p.configs.recommended.plugins then
      match p.configs.recommended.plugins[key]
      case SelfRef => Some(p)
    else
      None
  }

  /** The registry built from successfully validated descriptors: keyed by
      exactly the descriptor names, each holding its last descriptor. */
  lemma RegistryMap<T>(ds: seq<Descriptor<T>>, entries: seq<(string, RuleDef<T>)>)
    requires RegistryEntries(ds) == Success(entries)
    ensures forall name :: name in FromEntries(entries) <==> Named(ds, name)
    ensures forall i :: LastNamed(ds, i) ==>
      ds[i].name in FromEntries(entries) && FromEntries(entries)[ds[i].name] == RegisterRule(ds[i])
  {
    FromEntriesSpec(entries);
    forall name ensures HasKey(entries, name) <==> Named(ds, name) {
      if HasKey(entries, name) {
        var i :| 0 <= i < |entries| && entries[i].0 == name;
        assert ds[i].name == name;
      }
      if Named(ds, name) {
        var i :| 0 <= i < |ds| && ds[i].name == name;
        assert entries[i].0 == name;
      }
    }
    forall i | LastNamed(ds, i) ensures LastKeyAt(entries, i) {
    }
  }

  /** The patched plugin: named after `pluginName`, with a single `plugins`
      entry that resolves to the plugin itself. */
  function Assemble<T>(pluginName: string, recommended: map<string, Level>,
                       rules: map<string, RuleDef<T>>): (p: Plugin<T>)
    ensures p.meta == Meta(pluginName, PackageVersion)
    ensures p.configs.recommended.name == pluginName + "/recommended"
    ensures p.configs.recommended.plugins.Keys == {pluginName}
    ensures Resolve(p, pluginName) == Some(p)
    ensures p.configs.recommended.rules == recommended && p.rules == rules
  {
    PatchSelf(Shell(pluginName, recommended, rules), pluginName)
  }

  /** `createPlugin`: validate every descriptor, then assemble the plugin. */
  function CreatePlugin<T>(pluginName: string, ds: seq<Descriptor<T>>): (r: Result<Plugin<T>, BuildError>)
    ensures r.Failure? <==> exists i :: 0 <= i < |ds| && NeedsMessageData(ds[i])
    ensures r.Failure? ==> exists i :: FirstInvalid(ds, i) && r.error == MissingMessageData(ds[i].name)
    ensures r.Success? ==>
      && r.value.meta == Meta(pluginName, PackageVersion)
      && r.value.configs.recommended.name == pluginName + "/recommended"
      && r.value.configs.recommended.plugins.Keys == {pluginName}
      && Resolve(r.value, pluginName) == Some(r.value)
      && (forall name :: name in r.value.rules <==> Named(ds, name))
      && (forall i :: LastNamed(ds, i) ==>
            ds[i].name in r.value.rules && r.value.rules[ds[i].name] == RegisterRule(ds[i]))
  {
    var recommended := FromEntries(RecommendedEntries(pluginName, ds));
    match RegistryEntries(ds)
    case Failure(e) => Failure(e)
    case Success(entries) =>
      RegistryMap(ds, entries);
      Success(Assemble(pluginName, recommended, FromEntries(entries)))
  }

  /** Some descriptor is called `name`. */
  ghost predicate Named<T>(ds: seq<Descriptor<T>>, name: string)
  {
    exists i :: 0 <= i < |ds| && ds[i].name == name
  }

  /** Some active descriptor has rule id `id`. */
  ghost predicate ActiveId<T>(pluginName: string, ds: seq<Descriptor<T>>, id: string)
  {
    exists i :: 0 <= i < |ds| && Active(ds[i]) && RuleId(pluginName, ds[i].name) == id
  }

  /** No descriptor after `i` has the name of descriptor `i`. */
  ghost predicate LastNamed<T>(ds: seq<Descriptor<T>>, i: int)
  {
    0 <= i < |ds| && forall j :: i < j < |ds| ==> ds[j].name != ds[i].name
  }

  /** No active descriptor after the active descriptor `i` has its name. */
  ghost predicate LastActiveNamed<T>(ds: seq<Descriptor<T>>, i: int)
  {
    0 <= i < |ds| && Active(ds[i])
    && forall j :: i < j < |ds| && Active(ds[j]) ==> ds[j].name != ds[i].name
  }

  /** Each descriptor adds at most one entry to `recommended.rules`. */
  lemma RecommendedStep<T>(pluginName: string, ds: seq<Descriptor<T>>)
    requires |ds| > 0
    ensures var n := |ds| - 1;
      FromEntries(RecommendedEntries(pluginName, ds))
      == if Active(ds[n]) then
           FromEntries(RecommendedEntries(pluginName, ds[..n]))
             [RuleId(pluginName, ds[n].name) := Severity(ds[n])]
         else
           FromEntries(RecommendedEntries(pluginName, ds[..n]))
  {
    var n := |ds| - 1;
    var pre := RecommendedEntries(pluginName, ds[..n]);
    if Active(ds[n]) {
      FromEntriesSnoc(pre, (RuleId(pluginName, ds[n].name), Severity(ds[n])));
    } else {
      assert RecommendedEntries(pluginName, ds) == pre + [];
      assert pre + [] == pre;
    }
  }

  /** The ids in `recommended.rules` are exactly those of the active
      descriptors. */
  lemma {:induction false} RecommendedKeys<T>(pluginName: string, ds: seq<Descriptor<T>>)
    ensures forall id :: id in FromEntries(RecommendedEntries(pluginName, ds)) <==>
                          ActiveId(pluginName, ds, id)
    decreases |ds|
  {
    if |ds| > 0 {
      var n := |ds| - 1;
      var pre := ds[..n];
      RecommendedKeys(pluginName, pre);
      RecommendedStep(pluginName, ds);
      forall id ensures ActiveId(pluginName, ds, id) <==>
        ActiveId(pluginName, pre, id) || (Active(ds[n]) && id == RuleId(pluginName, ds[n].name))
      {
        if ActiveId(pluginName, pre, id) {
          var i :| 0 <= i < |pre| && Active(pre[i]) && RuleId(pluginName, pre[i].name) == id;
          assert ds[i] == pre[i];
        }
        if ActiveId(pluginName, ds, id) {
          var i :| 0 <= i < |ds| && Active(ds[i]) && RuleId(pluginName, ds[i].name) == id;
          if i < n { assert ds[i] == pre[i]; }
        }
      }
    }
  }

  /** No rule in `recommended.rules` is `off`. */
  lemma {:induction false} RecommendedNeverOff<T>(pluginName: string, ds: seq<Descriptor<T>>)
    ensures forall id :: id in FromEntries(RecommendedEntries(pluginName, ds)) ==>
      FromEntries(RecommendedEntries(pluginName, ds))[id] != Off
    decreases |ds|
  {
    if |ds| > 0 {
      RecommendedNeverOff(pluginName, ds[..|ds| - 1]);
      RecommendedStep(pluginName, ds);
    }
  }

  /** Each id in `recommended.rules` carries the severity of the last active
      descriptor with that name. */
  lemma {:induction false} RecommendedLastWins<T>(pluginName: string, ds: seq<Descriptor<T>>)
    ensures var m := FromEntries(RecommendedEntries(pluginName, ds));
      forall i :: LastActiveNamed(ds, i) ==>
        RuleId(pluginName, ds[i].name) in m && m[RuleId(pluginName, ds[i].name)] == Severity(ds[i])
    decreases |ds|
  {
    if |ds| > 0 {
      var n := |ds| - 1;
      var pre := ds[..n];
      RecommendedLastWins(pluginName, pre);
      RecommendedStep(pluginName, ds);
      var m := FromEntries(RecommendedEntries(pluginName, ds));
      forall i | LastActiveNamed(ds, i) && i < n
        ensures RuleId(pluginName, ds[i].name) in m && m[RuleId(pluginName, ds[i].name)] == Severity(ds[i])
      {
        assert pre[i] == ds[i];
        assert LastActiveNamed(pre, i);
        if Active(ds[n]) && RuleId(pluginName, ds[i].name) == RuleId(pluginName, ds[n].name) {
          RuleIdInjective(pluginName, ds[i].name, ds[n].name);
        }
      }
    }
  }

  /** The `recommended.rules` table: its ids are exactly those of the active
      descriptors, none of them is `off`, and each carries the severity of the
      last active descriptor of that name. */
  lemma RecommendedRules<T>(pluginName: string, ds: seq<Descriptor<T>>)
    ensures var m := FromEntries(RecommendedEntries(pluginName, ds));
      && (forall id :: id in m <==> ActiveId(pluginName, ds, id))
      && (forall k :: k in m ==> m[k] != Off)
      && (forall i :: LastActiveNamed(ds, i) ==>
            RuleId(pluginName, ds[i].name) in m && m[RuleId(pluginName, ds[i].name)] == Severity(ds[i]))
  {
    RecommendedKeys(pluginName, ds);
    RecommendedNeverOff(pluginName, ds);
    RecommendedLastWins(pluginName, ds);
  }

  /** On success, the recommended config lists exactly the active descriptors,
      by rule id, with their severities. */
  lemma CreatePluginRecommended<T>(pluginName: string, ds: seq<Descriptor<T>>)
    requires CreatePlugin(pluginName, ds).Success?
    ensures var rules := CreatePlugin(pluginName, ds).value.configs.recommended.rules;
      && (forall id :: id in rules <==> ActiveId(pluginName, ds, id))
      && (forall k :: k in rules ==> rules[k] != Off)
      && (forall i :: LastActiveNamed(ds, i) ==>
            && RuleId(pluginName, ds[i].name) in rules
            && rules[RuleId(pluginName, ds[i].name)] == Severity(ds[i]))
  {
    RecommendedRules(pluginName, ds);
  }

  /** Each registered rule reports, and documents itself with, its
      descriptor's message. */
  lemma CreatePluginMessages<T>(pluginName: string, ds: seq<Descriptor<T>>)
    requires CreatePlugin(pluginName, ds).Success?
    ensures var rules := CreatePlugin(pluginName, ds).value.rules;
      forall name :: name in rules ==>
        && rules[name].config.name == name
        && rules[name].meta.messages == map[ReportId := rules[name].config.message]
        && rules[name].meta.description == rules[name].config.message
        && rules[name].meta.url == rules[name].config.docUrl
  {
    var rules := CreatePlugin(pluginName, ds).value.rules;
    forall name | name in rules
      ensures rules[name] == RegisterRule(rules[name].config) && rules[name].config.name == name
    {
      assert Named(ds, name);
      var i :| 0 <= i < |ds| && ds[i].name == name;
      var k := LastIndexNamed(ds, i);
      assert rules[name] == RegisterRule(ds[k]);
    }
  }

  /** A failed build throws an error whose text opens by naming, in quotes,
      the first descriptor that needs `messageData`. */
  lemma CreatePluginErrorMessage<T>(pluginName: string, ds: seq<Descriptor<T>>)
    ensures var r := CreatePlugin(pluginName, ds);
      r.Failure? ==> exists i ::
        && FirstInvalid(ds, i)
        && OccursAt(ErrorMessage(r.error), "Rule '" + ds[i].name + "'", 0)
  {
    var r := CreatePlugin(pluginName, ds);
    if r.Failure? {
      var i :| FirstInvalid(ds, i) && r.error == MissingMessageData(ds[i].name);
    }
  }

  /** The last descriptor sharing the name of descriptor `i`. */
  lemma LastIndexNamed<T>(ds: seq<Descriptor<T>>, i: int) returns (k: int)
    requires 0 <= i < |ds|
    ensures i <= k && LastNamed(ds, k) && ds[k].name == ds[i].name
    decreases |ds| - i
  {
    if j :| i < j < |ds| && ds[j].name == ds[i].name {
      k := LastIndexNamed(ds, j);
    } else {
      k := i;
    }
  }
}

=== FILE: syntax.dfy ===
/** The syntax matcher: one handler per selector, each reporting once at the
    matched node's location, and the factory entry point that accepts an
    optional plugin name. */
module Syntax {
  import opened Wrappers
  import opened Ast
  import opened Shared

  /** A selector handler; it captures only the descriptor's data callback. */
  datatype Handler = Handler(messageData: Option<DataFn>)

  /** Calling a handler on a matched node: one report at the node's location. */
  function Invoke(h: Handler, eval: DataEval, node: Node, loc: Loc): Report
  {
    Report(ReportId, AtLoc(loc), ReportData(h.messageData, eval, node))
  }

  /** The `[selector, handler]` entries, one per selector, in order. */
  function HandlerEntries(selectors: seq<string>, messageData: Option<DataFn>): (r: seq<(string, Handler)>)
    ensures |r| == |selectors|
    ensures forall i :: 0 <= i < |r| ==> r[i] == (selectors[i], Handler(messageData))
  {
    seq(|selectors|, i requires 0 <= i < |selectors| => (selectors[i], Handler(messageData)))
  }

  /** The handler map of a compiled rule: keyed by exactly the descriptor's
      selectors (a repeated selector appears once), every key sharing the
      same handler. */
  function Handlers(config: Descriptor<OneOrMany<string>>): (m: map<string, Handler>)
    ensures forall s :: s in m <==> s in ToList(config.target)
    ensures config.target.One? ==> m.Keys == {config.target.item}
    ensures forall s :: s in m ==> m[s] == Handler(config.messageData)
  {
    var selectors := ToList(config.target);
    var entries := HandlerEntries(selectors, config.messageData);
    FromEntriesSpec(entries);
    assert forall s :: HasKey(entries, s) <==> s in selectors by {
      forall s | s in selectors ensures HasKey(entries, s) {
        var i :| 0 <= i < |selectors| && selectors[i] == s;
        assert entries[i].0 == s;
      }
    }
    FromEntriesValues(entries, Handler(config.messageData));
    FromEntries(entries)
  }

  /** The host running the rule on a node that matched `selector`: exactly
      one report, at the node's location, when the selector is one of the
      descriptor's; none otherwise. */
  function OnSelector(config: Descriptor<OneOrMany<string>>, eval: DataEval, selector: string,
                      node: Node, loc: Loc): (r: seq<Report>)
    ensures |r| == (if selector in ToList(config.target) then 1 else 0)
    ensures forall k :: 0 <= k < |r| ==>
      r[k] == Report(ReportId, AtLoc(loc), ReportData(config.messageData, eval, node))
  {
    var handlers := Handlers(config);
    if selector in handlers then [Invoke(handlers[selector], eval, node, loc)] else []
  }

  /** Putting a descriptor in front adds its name and its validity. */
  lemma ConsDescriptors<T>(d: Descriptor<T>, rest: seq<Descriptor<T>>)
    ensures forall n :: Named([d] + rest, n) <==> n == d.name || Named(rest, n)
    ensures (exists i :: 0 <= i < |[d] + rest| && NeedsMessageData(([d] + rest)[i]))
        <==> NeedsMessageData(d) || exists i :: 0 <= i < |rest| && NeedsMessageData(rest[i])
  {
    var ds := [d] + rest;
    assert forall i :: 0 <= i < |rest| ==> ds[i + 1] == rest[i];
    forall n ensures Named(ds, n) <==> n == d.name || Named(rest, n) {
      if Named(ds, n) && n != d.name {
        var i :| 0 <= i < |ds| && ds[i].name == n;
        assert rest[i - 1].name == n;
      }
      if Named(rest, n) {
        var i :| 0 <= i < |rest| && rest[i].name == n;
        assert ds[i + 1].name == n;
      }
      assert ds[0].name == d.name;
    }
    if i :| 0 <= i < |ds| && NeedsMessageData(ds[i]) {
      if i > 0 { assert NeedsMessageData(rest[i - 1]); }
    }
    if NeedsMessageData(d) {
      assert NeedsMessageData(ds[0]);
    }
    if i :| 0 <= i < |rest| && NeedsMessageData(rest[i]) {
      assert NeedsMessageData(ds[i + 1]);
    }
  }

  /** The plugin name used when no name is given. */
  const DefaultName: string := "no-restricted-syntax"

  /** The first argument of `create`: a plugin name or the first descriptor. */
  datatype NameOrRule = Name(name: string) | Rule(rule: Descriptor<OneOrMany<string>>)

  /** `create(nameOrRule, ...rules)`: a string first argument names the
      plugin and the rest are its descriptors; otherwise the plugin is named
      `no-restricted-syntax` and every argument is a descriptor. */
  function Create(first: NameOrRule, rest: seq<Descriptor<OneOrMany<string>>>)
    : (r: Result<Plugin<OneOrMany<string>>, BuildError>)
    ensures first.Name? ==>
      && (r.Failure? <==> exists i :: 0 <= i < |rest| && NeedsMessageData(rest[i]))
      && (r.Success? ==>
            && r.value.meta.name == first.name
            && (forall n :: n in r.value.rules <==> Named(rest, n)))
    ensures first.Rule? ==>
      && (r.Failure? <==>
            || NeedsMessageData(first.rule)
            || exists i :: 0 <= i < |rest| && NeedsMessageData(rest[i]))
      && (r.Success? ==>
            && r.value.meta.name == DefaultName
            && first.rule.name in r.value.rules
            && (forall n :: n in r.value.rules <==> n == first.rule.name || Named(rest, n)))
  {
    match first
    case Name(name) => CreatePlugin(name, rest)
    case Rule(d) =>
      var ds := [d] + rest;
      ConsDescriptors(d, rest);
      CreatePlugin(DefaultName, ds)
  }
}

=== FILE: wrappers.dfy ===
/** Optional values and fallible results, used for the source's `null`
    returns and thrown construction errors. */
module Wrappers {

  /** A value that may be absent (`null` / `undefined` in the source). */
  datatype Option<+T> = None | Some(value: T)

  /** Either a value or the error the source would have thrown. */
  datatype Result<+R, +E> = Success(value: R) | Failure(error: E)
}
